=== FILE: README.md ===
# eval-stack judge: verified model of the verdict logic

eval-stack is an online-judge runner. It compiles a submission, runs it
once per test case with time and memory limits, and compares each run's
output with the expected output. It then stores the per-case verdicts and
one overall verdict for the submission. This project models in Dafny the
parts of the runner that decide verdicts, and proves what they promise:

- `judge.dfy` (module `Judge`) covers `src/judge.rs`. It holds the verdict
  types, the line-by-line output comparison that ignores trailing
  whitespace, the classification of a child that exited badly, and the
  `Judge` object. `Judge.Poll` is one poll of a running child: it keeps the
  peak memory, checks the memory limit before the time limit, and gives the
  verdict once the child has finished.
- `cases.dfy` (module `Cases`) covers `src/case.rs`. It chooses the
  executable, builds the interpreter arguments, short-circuits on a compile
  error and runs the fail-fast result loop (`RunTestCases`). That loop is
  proved against a recursive reference definition, `Drive`.
- `runtime.dfy` (module `Runtime`) covers `src/engine/runtime.rs`. It holds
  the notification filter, the language-to-file-name mapping, and the fold
  of per-case verdicts into one (`Aggregate`). The fold is proved against
  the declarative `Aggregated`.
- `config.dfy` (module `Config`) covers `src/config.rs`: the default
  options and the builder setters.
- `utils.dfy` (module `Utils`) covers `src/utils.rs`: the resident memory
  read from `/proc/<pid>/statm` contents. It also models the standard-library
  pieces that reading relies on: `char::is_whitespace`,
  `str::split_whitespace` and `str::parse::<u64>`.
- `compile.dfy` (module `Compile`) holds only the `Language` type.
- `wrappers.dfy` (module `Wrappers`) holds `Option` and `Result`.

Conventions:

- A `Duration` is a `nat` of nanoseconds.
- `u64` and `i32` are subset types of `int`.
- A text line is a `string`; a file's lines are a `seq<string>`.
- `ExitStatus` carries an optional exit code and an optional signal, as
  Rust's Unix `ExitStatus` reports them.

`Language` has seven variants, C, CPP, Rust, Python, NodeJs, Java and
Golang. `src/compile.rs:13-19` declares only the first five. The runtime
matches on `Java` and `Golang` (`src/engine/runtime.rs:78,82`), and the
driver matches on `Java` (`src/case.rs:38`), with `Golang` falling into its
catch-all arm (`src/case.rs:39`). The model follows them. The `JudgeOptions`
record has the five fields of `src/config.rs:6-20`. The test drivers build
it with older field sets, and the model ignores those.

## Model

| member | source | states |
|---|---|---|
| Utils.SplitWhitespace | src/utils.rs:7 | every token is non-empty and contains no whitespace |
| Utils.SplitUnwords | src/utils.rs:7 | splitting words separated by any non-empty whitespace runs gives back exactly those words, in order |
| Utils.SkipSpace | src/utils.rs:7 | leading whitespace does not change the words `split_whitespace` yields |
| Utils.Decimal | src/case.rs:67 | `format!` of a number: a non-empty digit string with no leading zero whose decimal value is the number |
| Utils.ParseU64 | src/utils.rs:8 | a successful parse read an optional `+` and then only digits; the empty string and a lone `+` are rejected; the value fits in 64 bits |
| Utils.IsWhitespaceAscii | src/judge.rs:106 | `char::is_whitespace`: space, tab, line feed and carriage return are whitespace, no digit is, and the only ASCII whitespace is space and U+0009 to U+000D |
| Utils.ParseDecimal | src/utils.rs:8 | every number written in decimal, with or without a leading `+`, parses back to itself if it is below 2^64 and is rejected as an overflow otherwise |
| Utils.ParseRejectsNonDigit | src/utils.rs:8 | a token with a character that is not a digit (other than a leading `+`) is not a u64 |
| Utils.MemoryUsage | src/utils.rs:3-12 | None when the file is unreadable, when it has fewer than two tokens, or when the second token is not a u64; otherwise that token's value times the page size, wrapping at 2^64 |
| Utils.StatmResident | src/utils.rs:7-9 | for numbers separated by any non-empty whitespace runs, the result is the second number times the page size, modulo 2^64 |
| Utils.StatmLine | src/utils.rs:7-9 | for a statm line in the kernel's format (numbers separated by single spaces, ending in a newline), the result is the resident-page count times the page size, modulo 2^64 |
| Config.DefaultOptions | src/config.rs:22-32 | time limit 1 s, memory limit 134217728 bytes, fail-fast on, `noStartupLimits` and `unsafeMode` off |
| Config.FailFast | src/config.rs:35-38 | sets `failFast` to the argument and leaves every other field as it was |
| Config.NoFailFast | src/config.rs:40-42 | the result has `failFast` false and otherwise equals the input |
| Config.NoStartupLimits | src/config.rs:44-47 | sets `noStartupLimits` to the argument and leaves every other field as it was |
| Config.BuildersIdempotent | src/config.rs:35-47 | applying a setter twice is applying it once, and the last value set wins |
| Config.BuildersCommute | src/config.rs:35-47 | the two setters commute |
| Judge.DefaultResult | src/judge.rs:50-58 | the default result is Accepted with zero time and zero memory |
| Judge.IsAccepted | src/judge.rs:61-63 | true exactly when the status is Accepted |
| Judge.IsWrongAnswer | src/judge.rs:60-67 | true for every status except Accepted, so always the negation of `is_accepted` |
| Judge.TrimEnd | src/judge.rs:106 | the result is a prefix of the line, does not end in whitespace, and only whitespace was removed |
| Judge.TrimEndIgnoresTrailing | src/judge.rs:121-124 | appending whitespace to a line does not change its trimmed form |
| Judge.TrimEndKeepsLeading | src/judge.rs:121-124 | a leading character survives the trim of a non-blank line, so leading whitespace is significant |
| Judge.CompareLines | src/judge.rs:98-130 | the comparison loop answers exactly `LinesMatch`: with the shorter side padded by empty lines, every pair is equal after trimming trailing whitespace |
| Judge.LinesMatchSymmetric | src/judge.rs:104-119 | the comparison is symmetric in output and expected output |
| Judge.TrailingWhitespaceAccepted | src/judge.rs:120-128 | output whose lines differ from the expected ones only by trailing whitespace matches |
| Judge.SurplusOutput | src/judge.rs:104-111 | surplus output lines are tolerated if and only if each is blank after trimming |
| Judge.SurplusExpected | src/judge.rs:112-119 | surplus expected lines are tolerated if and only if each is blank after trimming |
| Judge.LeadingWhitespaceRejected | src/judge.rs:120-127 | a paired line that differs from a non-blank expected line by a leading character is a mismatch |
| Judge.ExitVerdict | src/judge.rs:153-176 | SIGSEGV, SIGBUS or SIGILL give SegmentFault; any other signal gives SystemError carrying that signal; no signal gives RuntimeError; the code is the exit code or -1; stderr is kept |
| Judge.FailedExitAsWired | src/judge.rs:146-153 | the stderr pipe is unwrapped before classifying: without a pipe there is no verdict (a panic), with one the verdict is `ExitVerdict` |
| Judge.NullStderrPanics | src/exec.rs:44 | with stderr spawned as null, every failed exit panics, although `ExitVerdict` would classify it as a crash, system error or runtime error |
| Judge.FinishedVerdict | src/judge.rs:94-177 | a clean exit gives Accepted or WrongAnswer; any other exit gives `ExitVerdict` |
| Judge.FinishedVerdictCases | src/judge.rs:94-177 | a finished child is Accepted if and only if it exited with code 0 and its output matches, WrongAnswer if and only if it exited with code 0 and the output does not match, and a crash verdict otherwise |
| Judge.Judge.constructor | src/exec.rs:85-95 | a new judge takes its limits from the options and starts with zero memory and zero time |
| Judge.Judge.Poll | src/judge.rs:85-205 | finished: time is recorded and the verdict is `FinishedVerdict` with the peak memory; running: peak memory becomes the max of itself and the sample, MemoryLimitExceeded if and only if the peak exceeds the limit strictly, else TimeLimitExceeded if and only if the elapsed time exceeds the limit strictly, else Pending with time unchanged |
| Cases.JoinPath | src/case.rs:39 | `PathBuf::join`: the result extends the directory and ends with the name |
| Cases.Interpreter | src/case.rs:35-40 | only Python, NodeJs and Java are run through an interpreter on PATH |
| Cases.ExecPath | src/case.rs:35-40 | compiled languages run `workspace/out`; interpreted ones run the PATH lookup's result, and a failed lookup is an error naming the program |
| Cases.CompiledLanguagesShareBinary | src/case.rs:39 | all compiled languages run the same `out` binary inside the workspace |
| Cases.LaunchArgs | src/case.rs:64-82 | Python gets the source file, Java gets `Main`, NodeJs gets eight deno arguments with the memory limit in the `--max-old-space-size` flag, and compiled languages get none |
| Cases.DenoArgs | src/case.rs:65-74 | eight deno arguments whose second is the heap flag with the given size |
| Cases.LaunchArgsCorrected | src/case.rs:65-74 | as LaunchArgs, but the NodeJs heap flag carries the memory limit in MiB |
| Cases.HeapFlagInBytes | src/case.rs:67 | as written, V8 reads a heap cap of the memory limit times 2^20 bytes, above the limit |
| Cases.CorrectedHeapCapWithinLimit | src/case.rs:67 | with the corrected flag, the heap cap is at most the memory limit and within 1 MiB of it |
| Cases.CompileErrorResult | src/case.rs:55-61 | the compile-error verdict carries the message and zero time and zero memory |
| Cases.RunTestCases | src/case.rs:14-111 | the driver loop returns exactly `RunSpec`: the lookup error, the single compile-error verdict, or `Drive` over the test cases |
| Cases.CompileErrorShortCircuits | src/case.rs:42-62 | a failed compile yields exactly one CompileError verdict with zero time and memory |
| Cases.DriveInOrder | src/case.rs:84-103 | there are never more verdicts than test cases, and the k-th verdict is that of the k-th case |
| Cases.DriveFailFast | src/case.rs:98-101 | with fail-fast every verdict but the last is Accepted, and stopping early means the last verdict is a rejection |
| Cases.DriveNoFailFast | src/case.rs:85-103 | without fail-fast the run succeeds if and only if every case executes, and then there is one verdict per case |
| Cases.DriveExecutionError | src/case.rs:86-97 | a failed run names the first case whose execution failed |
| Runtime.SourceFileName | src/engine/runtime.rs:75-83 | each language's file is a bare name starting with `main.`, or `Main.` for Java |
| Runtime.SourceFileNamesDistinct | src/engine/runtime.rs:75-83 | different languages get different file names |
| Runtime.SubmissionOptions | src/engine/runtime.rs:91-97 | submissions are judged with the default options with `unsafeMode` set, every other field unchanged |
| Runtime.SubmissionCases | src/engine/runtime.rs:98-102 | one driver test case per stored case, each `tests/1.in` against `tests/1.out` |
| Runtime.MaximaAreReached | src/engine/runtime.rs:109-110 | the aggregated time and memory bound every verdict's and are reached by some verdict |
| Runtime.FirstRejected | src/engine/runtime.rs:111-114 | the index of a rejected verdict with only Accepted verdicts before it |
| Runtime.AggregatedEmpty | src/engine/runtime.rs:107 | no verdicts aggregate to the default result |
| Runtime.Aggregate | src/engine/runtime.rs:107-115 | the fold gives the first rejected verdict unchanged, or Accepted with the maximum time and memory |
| Runtime.HandleSubmission | src/engine/runtime.rs:51-127 | a notification that is not Create produces no report; a created submission reports its verdicts and their aggregate, or the driver's error |
| Runtime.HandleSubmissionShape | src/engine/runtime.rs:87-115 | when the interpreter lookup succeeds, the submission compiles (no compile error) and every case executes, a submission gets at most one verdict per case, all of them when all are accepted, and otherwise an overall verdict equal to the last verdict |

## Left out

- Judge.Judge.Poll: the source reads the clock up to twice in one poll; on the time-limit path the recorded time is a later reading than the one compared with the limit. The model takes one elapsed time per poll.
- Judge.Judge.Poll: the stderr of a failed child is an input string; as wired, the source panics there instead (see Findings).
- Judge.Judge.Poll: opening the output files, errors while reading a line, `try_wait` and `kill` errors, reading stderr, and waking the task are left out. The lines, the exit status, stderr and the statm contents are inputs.
- Utils.MemoryUsage: the page size is an input; `sysconf` failing is not modelled. The multiplication wraps modulo 2^64 as in a release build; a debug build would panic instead.
- Runtime.SubmissionOptions: setting `unsafeMode` has no effect, and neither has `noStartupLimits`. No code reads either flag: src/config.rs:16-19 documents them as turning off `RLIMIT_AS`, seccomp and the kernel sandbox, but the child setup in src/exec.rs:47-78 always sets PR_SET_NO_NEW_PRIVS, unshares the mount namespace and sets `RLIMIT_AS` to the memory limit, whatever the options say (tests/test_fs.rs:51 sets `no_startup_limits: true` to no effect). Process setup is not part of this model, so the flags are only carried in `JudgeOptions`.
- Cases.RunTestCases: the PATH lookup is a function parameter, compilation is an outcome parameter, and running test case k is a function of k. Process spawning (`src/exec.rs`) and the compilers (`src/compile.rs`) are not part of this model.
- Cases.RunTestCases: creating the workspace and removing it when `clean` is set, and the errors of both, are not modelled.
- Cases.LaunchArgs: no driver member passes the argument lists on to execution, because execution is abstract; only the heap-flag lemmas (HeapFlagInBytes, CorrectedHeapCapWithinLimit) read them.
- Runtime.HandleSubmission: writing the source file, the two database updates (status Judging, then Ready with the verdicts), an error in the notification stream and the workspace creation are not modelled. The report stands for the final update.
- Runtime.HandleSubmission: the source gives the driver the literal pair `tests/1.in`/`tests/1.out` for every stored case (src/engine/runtime.rs:98-102), relative to the judge's working directory, and ignores the per-case paths the live query selects; every case therefore runs on the same files. The model keeps that mapping (SubmissionCases), but its abstract `execute(k)` lets case k's verdict differ from the others', which the source's identical inputs would only allow through nondeterminism of the program or the clock.
- `listen_for_submissions` and its concurrent tasks, the entry point and the serde/database record shapes are not modelled.

## Findings

| source | as written | input that shows it | evidently intended | confidence | as-written member | corrected member |
|---|---|---|---|---|---|---|
| src/case.rs:67 | the deno flag `--max-old-space-size` gets `options.memory_limit`, a byte count, but V8 reads the value in MiB | default options: memory limit 134217728 bytes gives `--max-old-space-size=134217728`, a 128 TiB heap cap | the limit in MiB, `memory_limit / 2^20` (128 for the default) | medium, not executed | Cases.HeapFlagInBytes | Cases.CorrectedHeapCapWithinLimit |
| src/judge.rs:147-151 | a failed child's stderr is read with `self.child.stderr.take().unwrap()`, but `execute` spawns every child with `.stderr(Stdio::null())` (src/exec.rs:44), so there is no pipe | any submission that exits with a non-zero code or is killed by a signal, such as a program calling `exit(1)`: the unwrap panics and no verdict is produced | classify the exit anyway, with empty stderr when there is no pipe, as tests/test_fs.rs:63-69 expects (a RuntimeError with code 1 for a program that fails to write) | high, not executed | Judge.NullStderrPanics | Judge.ExitVerdict |

=== FILE: cases.dfy ===
/**
 * Running a submission against its test cases (src/case.rs): choosing what to
 * execute, short-circuiting on a compile error, and collecting one verdict per
 * test case, stopping at the first rejection in fail-fast mode.
 */
module Cases {
  import opened Wrappers
  import opened Utils
  import opened Config
  import opened Judge
  import opened Compile

  /** A test case: the file fed to the program and the file its output is compared with. */
  datatype TestCase = TestCase(inputFile: string, expectedOutputFile: string)

  /** Why the driver gives up with an error instead of a list of verdicts. */
  datatype DriverError =
    | InterpreterNotFound(program: string)
    | ExecutionFailed(caseIndex: nat)

  /** `PathBuf::join` with a relative name: a separator is added unless `dir` is empty or ends in one. */
  function JoinPath(dir: string, name: string): (p: string)
    ensures dir <= p
    ensures |p| >= |name| && p[|p| - |name|..] == name
    ensures |p| <= |dir| + 1 + |name|
  {
    if dir == [] || dir[|dir| - 1] == '/' then dir + name else dir + "/" + name
  }

  /** The interpreter looked up on PATH for the languages that are not compiled to `out`. */
  function Interpreter(language: Language): (program: Option<string>)
    ensures program.Some? <==> language in {Python, NodeJs, Java}
  {
    match language
    case Python => Some("python")
    case NodeJs => Some("deno")
    case Java => Some("java")
    case _ => None
  }

  /**
   * The program the driver runs for each test case. `which` stands for the
   * PATH lookup; a failed lookup aborts the whole run.
   */
  function ExecPath(language: Language, workspace: string, which: string -> Option<string>)
    : (r: Result<string, DriverError>)
    ensures Interpreter(language).None? ==> r == Ok(JoinPath(workspace, "out"))
    ensures r.Err? <==> Interpreter(language).Some? && which(Interpreter(language).value).None?
    ensures r.Err? ==> r.error == InterpreterNotFound(Interpreter(language).value)
    ensures r.Ok? && Interpreter(language).Some? ==> Some(r.value) == which(Interpreter(language).value)
  {
    match Interpreter(language)
    case None => Ok(JoinPath(workspace, "out"))
    case Some(program) =>
      match which(program)
      case None => Err(InterpreterNotFound(program))
      case Some(path) => Ok(path)
  }

  /** Every compiled language runs the same binary, `out` inside the workspace. */
  lemma CompiledLanguagesShareBinary(a: Language, b: Language, workspace: string,
                                     which: string -> Option<string>)
    requires a !in {Python, NodeJs, Java} && b !in {Python, NodeJs, Java}
    ensures ExecPath(a, workspace, which) == ExecPath(b, workspace, which)
    ensures ExecPath(a, workspace, which).Ok?
    ensures var p := ExecPath(a, workspace, which).value; workspace <= p && p[|p| - 3..] == "out"
  {
  }

  const HEAP_FLAG: string := "--v8-flags=--max-old-space-size="
  const MIB: nat := 0x10_0000

  /** The arguments given to the interpreter (None for a compiled binary), as written. */
  function LaunchArgs(language: Language, sourceFile: string, memoryLimit: u64)
    : (args: Option<seq<string>>)
    ensures args.Some? <==> Interpreter(language).Some?
    ensures language == Python ==> args == Some([sourceFile])
    ensures language == Java ==> args == Some(["Main"])
    ensures language == NodeJs ==>
      |args.value| == 8 && args.value[0] == "run" && args.value[7] == sourceFile
      && args.value[1] == HEAP_FLAG + Decimal(memoryLimit)
  {
    match language
    case Python => Some([sourceFile])
    case NodeJs => Some(DenoArgs(sourceFile, Decimal(memoryLimit)))
    case Java => Some(["Main"])
    case _ => None
  }

  function DenoArgs(sourceFile: string, heapSize: string): (args: seq<string>)
    ensures |args| == 8 && args[1] == HEAP_FLAG + heapSize
  {
    ["run", HEAP_FLAG + heapSize, "--deny-read=*", "--deny-write=*", "--deny-env=*",
     "--deny-run=*", "--deny-ffi=*", sourceFile]
  }

  /** LaunchArgs with the heap size given in MiB, the unit V8 reads it in. */
  function LaunchArgsCorrected(language: Language, sourceFile: string, memoryLimit: u64)
    : (args: Option<seq<string>>)
    ensures language != NodeJs ==> args == LaunchArgs(language, sourceFile, memoryLimit)
    ensures language == NodeJs ==> args.Some? && |args.value| == 8 && args.value[1] == HEAP_FLAG + Decimal(memoryLimit / MIB)
  {
    match language
    case NodeJs => Some(DenoArgs(sourceFile, Decimal(memoryLimit / MIB)))
    case _ => LaunchArgs(language, sourceFile, memoryLimit)
  }

  /** The byte cap V8 takes from the `--max-old-space-size` flag, whose value is in MiB. */
  function V8HeapCap(args: seq<string>): Option<nat> {
    if |args| < 2 || !(HEAP_FLAG <= args[1]) then None
    else
      match ParseU64(args[1][|HEAP_FLAG|..])
      case None => None
      case Some(mib) => Some(mib * MIB)
  }

  lemma HeapFlagParses(args: seq<string>, heapSize: u64)
    requires |args| >= 2 && args[1] == HEAP_FLAG + Decimal(heapSize)
    ensures V8HeapCap(args) == Some(heapSize * MIB)
  {
    assert args[1][|HEAP_FLAG|..] == Decimal(heapSize);
    ParseDecimal(heapSize);
  }

  /** As written, the heap cap handed to V8 is the memory limit times 2^20, far above the limit. */
  lemma HeapFlagInBytes(sourceFile: string, memoryLimit: u64)
    requires memoryLimit > 0
    ensures V8HeapCap(LaunchArgs(NodeJs, sourceFile, memoryLimit).value) == Some(memoryLimit * MIB)
    ensures memoryLimit * MIB > memoryLimit
  {
    HeapFlagParses(LaunchArgs(NodeJs, sourceFile, memoryLimit).value, memoryLimit);
  }

  /** With the heap size in MiB, the cap never exceeds the memory limit and is within 1 MiB of it. */
  lemma CorrectedHeapCapWithinLimit(sourceFile: string, memoryLimit: u64)
    ensures V8HeapCap(LaunchArgsCorrected(NodeJs, sourceFile, memoryLimit).value)
            == Some(memoryLimit / MIB * MIB)
    ensures memoryLimit - MIB < memoryLimit / MIB * MIB <= memoryLimit
  {
    HeapFlagParses(LaunchArgsCorrected(NodeJs, sourceFile, memoryLimit).value, memoryLimit / MIB);
  }

  /** The single result reported when the submission does not compile. */
  function CompileErrorResult(message: string): (r: JudgeResult)
    ensures r.status == CompileError(message) && r.timeUsed == 0 && r.memoryUsed == 0
  {
    JudgeResult(CompileError(message), 0, 0)
  }

  /** Puts `results` in front of a run's outcome; an error stays an error. */
  function Prepend(results: seq<JudgeResult>, rest: Result<seq<JudgeResult>, DriverError>)
    : Result<seq<JudgeResult>, DriverError>
  {
    match rest
    case Ok(more) => Ok(results + more)
    case Err(e) => Err(e)
  }

  lemma PrependAssociative(a: seq<JudgeResult>, b: seq<JudgeResult>,
                            rest: Result<seq<JudgeResult>, DriverError>)
    ensures Prepend(a, Prepend(b, rest)) == Prepend(a + b, rest)
    ensures Prepend([], rest) == rest
  {
    if rest.Ok? {
      assert a + (b + rest.value) == (a + b) + rest.value;
      assert [] + rest.value == rest.value;
    }
  }

  /**
   * The verdicts for test cases `i` to `n - 1`: `execute(k)` is the verdict
   * of case `k`, or None when running it failed.
   */
  function Drive(execute: nat -> Option<JudgeResult>, n: nat, failFast: bool, i: nat)
    : Result<seq<JudgeResult>, DriverError>
    decreases n - i
  {
    if i >= n then Ok([])
    else
      match execute(i)
      case None => Err(ExecutionFailed(i))
      case Some(result) =>
        if failFast && !IsAccepted(result) then Ok([result])
        else Prepend([result], Drive(execute, n, failFast, i + 1))
  }

  /** The outcome of `run_test_cases`. */
  function RunSpec(language: Language, workspace: string, options: JudgeOptions, n: nat,
                   which: string -> Option<string>, compileError: Option<string>,
                   execute: nat -> Option<JudgeResult>): Result<seq<JudgeResult>, DriverError>
  {
    match ExecPath(language, workspace, which)
    case Err(e) => Err(e)
    case Ok(_) =>
      if compileError.Some? then Ok([CompileErrorResult(compileError.value)])
      else Drive(execute, n, options.failFast, 0)
  }

  /**
   * `run_test_cases`. `which` is the PATH lookup, `compileError` the outcome
   * of compiling (None on success), `execute(k)` the verdict of test case `k`.
   */
  method RunTestCases(language: Language, workspace: string, options: JudgeOptions,
                      testCases: seq<TestCase>, which: string -> Option<string>,
                      compileError: Option<string>, execute: nat -> Option<JudgeResult>)
    returns (r: Result<seq<JudgeResult>, DriverError>)
    ensures r == RunSpec(language, workspace, options, |testCases|, which, compileError, execute)
  {
    var execPath := ExecPath(language, workspace, which);
    if execPath.Err? {
      return Err(execPath.error);
    }
    if compileError.Some? {
      return Ok([CompileErrorResult(compileError.value)]);
    }
    ghost var n := |testCases|;
    var results: seq<JudgeResult> := [];
    var i := 0;
    PrependAssociative([], [], Drive(execute, n, options.failFast, 0));
    while i < |testCases|
      invariant i <= n
      invariant Drive(execute, n, options.failFast, 0)
                == Prepend(results, Drive(execute, n, options.failFast, i))
    {
      var outcome := execute(i);
      if outcome.None? {
        return Err(ExecutionFailed(i));
      }
      var result := outcome.value;
      if options.failFast && !IsAccepted(result) {
        results := results + [result];
        break;
      }
      PrependAssociative(results, [result], Drive(execute, n, options.failFast, i + 1));
      results := results + [result];
      i := i + 1;
    }
    assert results + [] == results;
    r := Ok(results);
  }

  /** A compile error yields exactly one CompileError verdict with zero time and memory. */
  lemma CompileErrorShortCircuits(language: Language, workspace: string, options: JudgeOptions,
                                  n: nat, which: string -> Option<string>, message: string,
                                  execute: nat -> Option<JudgeResult>)
    requires ExecPath(language, workspace, which).Ok?
    ensures RunSpec(language, workspace, options, n, which, Some(message), execute)
            == Ok([JudgeResult(CompileError(message), 0, 0)])
  {
  }

  /** There are never more verdicts than test cases, and verdict `k` is that of case `i + k`. */
  lemma {:induction false} DriveInOrder(execute: nat -> Option<JudgeResult>, n: nat,
                                        failFast: bool, i: nat)
    requires i <= n
    ensures Drive(execute, n, failFast, i).Ok? ==>
      var rs := Drive(execute, n, failFast, i).value;
      |rs| <= n - i && forall k | 0 <= k < |rs| :: execute(i + k) == Some(rs[k])
    decreases n - i
  {
    if i < n && execute(i).Some? {
      var result := execute(i).value;
      if !(failFast && !IsAccepted(result)) {
        DriveInOrder(execute, n, failFast, i + 1);
        var rest := Drive(execute, n, failFast, i + 1);
        if rest.Ok? {
          var rs := [result] + rest.value;
          assert Drive(execute, n, failFast, i).value == rs;
          forall k | 0 <= k < |rs| ensures execute(i + k) == Some(rs[k]) {
            if k > 0 {
              assert rs[k] == rest.value[k - 1];
              assert i + k == (i + 1) + (k - 1);
            }
          }
        }
      }
    }
  }

  /**
   * In fail-fast mode every verdict but the last is Accepted, and a run that
   * stops short of the last case ends with a rejection.
   */
  lemma {:induction false} DriveFailFast(execute: nat -> Option<JudgeResult>, n: nat, i: nat)
    requires i <= n
    ensures Drive(execute, n, true, i).Ok? ==>
      var rs := Drive(execute, n, true, i).value;
      && (forall k | 0 <= k < |rs| - 1 :: IsAccepted(rs[k]))
      && (|rs| < n - i ==> rs != [] && !IsAccepted(rs[|rs| - 1]))
    decreases n - i
  {
    if i < n && execute(i).Some? {
      var result := execute(i).value;
      if IsAccepted(result) {
        DriveFailFast(execute, n, i + 1);
        DriveInOrder(execute, n, true, i + 1);
        var rest := Drive(execute, n, true, i + 1);
        if rest.Ok? {
          var rs := [result] + rest.value;
          assert Drive(execute, n, true, i).value == rs;
          forall k | 0 <= k < |rs| - 1 ensures IsAccepted(rs[k]) {
            if k > 0 { assert rs[k] == rest.value[k - 1]; }
          }
          if |rs| < n - i {
            assert rs[|rs| - 1] == rest.value[|rest.value| - 1];
          }
        }
      }
    }
  }

  /**
   * Without fail-fast the run succeeds exactly when every case executes, and
   * then yields one verdict per test case.
   */
  lemma {:induction false} DriveNoFailFast(execute: nat -> Option<JudgeResult>, n: nat, i: nat)
    requires i <= n
    ensures Drive(execute, n, false, i).Ok? <==> forall k | i <= k < n :: execute(k).Some?
    ensures Drive(execute, n, false, i).Ok? ==> |Drive(execute, n, false, i).value| == n - i
    decreases n - i
  {
    if i < n {
      DriveNoFailFast(execute, n, i + 1);
    }
  }

  /**
   * A run that fails names the first test case whose execution failed; every
   * case before it executed.
   */
  lemma {:induction false} DriveExecutionError(execute: nat -> Option<JudgeResult>, n: nat,
                                               failFast: bool, i: nat)
    requires i <= n
    ensures Drive(execute, n, failFast, i).Err? ==>
      var e := Drive(execute, n, failFast, i).error;
      && e.ExecutionFailed? && i <= e.caseIndex < n && execute(e.caseIndex).None?
      && forall k | i <= k < e.caseIndex :: execute(k).Some?
    decreases n - i
  {
    if i < n && execute(i).Some? {
      DriveExecutionError(execute, n, failFast, i + 1);
    }
  }
}

=== FILE: compile.dfy ===
/**
 * The languages a submission may be written in. Compiling is not modelled:
 * to the test-case driver it is an outcome, success or an error message.
 */
module Compile {

  /** `Language`, with `Java` and `Golang`, which the driver and the runtime both handle. */
  datatype Language = C | CPP | Rust | Python | NodeJs | Java | Golang
}

=== FILE: config.dfy ===
/** The options that govern one judging run (src/config.rs). */
module Config {
  import opened Utils

  /** One second, in the nanoseconds that model a `Duration`. */
  const NANOS_PER_SECOND: nat := 1_000_000_000

  /** 128 MiB, the default memory limit in bytes. */
  const DEFAULT_MEMORY_LIMIT: u64 := 128 * 1024 * 1024

  /**
   * `JudgeOptions`: `timeLimit` is a `Duration` in nanoseconds,
   * `memoryLimit` a byte count. `noStartupLimits` and `unsafeMode` are
   * carried along but read by no part of the judge.
   */
  datatype JudgeOptions = JudgeOptions(
    timeLimit: nat,
    memoryLimit: u64,
    failFast: bool,
    noStartupLimits: bool,
    unsafeMode: bool)

  /** `JudgeOptions::default`. */
  function DefaultOptions(): (o: JudgeOptions)
    ensures o.timeLimit == NANOS_PER_SECOND
    ensures o.memoryLimit == 134_217_728
    ensures o.failFast && !o.noStartupLimits && !o.unsafeMode
  {
    JudgeOptions(NANOS_PER_SECOND, DEFAULT_MEMORY_LIMIT, true, false, false)
  }

  /** The `fail_fast` builder: sets `failFast` and nothing else. */
  function FailFast(o: JudgeOptions, failFast: bool): (r: JudgeOptions)
    ensures r.failFast == failFast
    ensures r.timeLimit == o.timeLimit && r.memoryLimit == o.memoryLimit
    ensures r.noStartupLimits == o.noStartupLimits && r.unsafeMode == o.unsafeMode
  {
    o.(failFast := failFast)
  }

  /** The `no_fail_fast` builder: `fail_fast(false)`. */
  function NoFailFast(o: JudgeOptions): (r: JudgeOptions)
    ensures !r.failFast
    ensures r.(failFast := o.failFast) == o
  {
    FailFast(o, false)
  }

  /** The `no_startup_limits` builder: sets `noStartupLimits` and nothing else. */
  function NoStartupLimits(o: JudgeOptions, noStartupLimits: bool): (r: JudgeOptions)
    ensures r.noStartupLimits == noStartupLimits
    ensures r.timeLimit == o.timeLimit && r.memoryLimit == o.memoryLimit
    ensures r.failFast == o.failFast && r.unsafeMode == o.unsafeMode
  {
    o.(noStartupLimits := noStartupLimits)
  }

  /** Applying a builder twice with the same argument is applying it once; the last call wins. */
  lemma BuildersIdempotent(o: JudgeOptions, a: bool, b: bool)
    ensures NoStartupLimits(NoStartupLimits(o, b), b) == NoStartupLimits(o, b)
    ensures NoStartupLimits(NoStartupLimits(o, a), b) == NoStartupLimits(o, b)
    ensures FailFast(FailFast(o, a), b) == FailFast(o, b)
    ensures NoFailFast(NoFailFast(o)) == NoFailFast(o)
  {
  }

  /** The two builders touch different fields, so their order does not matter. */
  lemma BuildersCommute(o: JudgeOptions, a: bool, b: bool)
    ensures FailFast(NoStartupLimits(o, a), b) == NoStartupLimits(FailFast(o, b), a)
  {
  }
}

=== FILE: judge.dfy ===
/**
 * Verdicts for one test case (src/judge.rs): comparing the program's output
 * with the expected output, classifying how the child process ended, and the
 * poll step that samples memory and enforces the memory and time limits.
 */
module Judge {
  import opened Wrappers
  import opened Utils
  import opened Config

  const SIGILL: i32 := 4
  const SIGBUS: i32 := 7
  const SIGSEGV: i32 := 11

  /** `JudgeStatus`. */
  datatype JudgeStatus =
    | Accepted
    | WrongAnswer
    | TimeLimitExceeded
    | MemoryLimitExceeded
    | RuntimeError(code: i32, stderr: string)
    | CompileError(message: string)
    | SystemError(code: i32, stderr: string, signal: i32)
    | SegmentFault(code: i32, stderr: string)

  /** `JudgeResult`: `timeUsed` in nanoseconds, `memoryUsed` in bytes. */
  datatype JudgeResult = JudgeResult(status: JudgeStatus, timeUsed: nat, memoryUsed: u64)

  /** `JudgeResult::default`. */
  function DefaultResult(): (r: JudgeResult)
    ensures IsAccepted(r) && r.timeUsed == 0 && r.memoryUsed == 0
  {
    JudgeResult(Accepted, 0, 0)
  }

  /** `is_accepted`: the status is Accepted, whatever the time and memory. */
  predicate IsAccepted(r: JudgeResult)
    ensures IsAccepted(r) <==> r.status == Accepted
  {
    r.status.Accepted?
  }

  /** `is_wrong_answer`: every verdict but Accepted, limits and crashes included. */
  function IsWrongAnswer(r: JudgeResult): (b: bool)
    ensures b <==> r.status != Accepted
  {
    !IsAccepted(r)
  }

  // ---------------------------------------------------------------------------
  // Output comparison
  // ---------------------------------------------------------------------------

  /**
   * `trim_end_matches(|c| c.is_whitespace() || c == '\n')`: the longest
   * prefix of `s` that does not end in whitespace.
   */
  function TrimEnd(s: string): (r: string)
    ensures r <= s
    ensures r == [] || !IsWhitespace(r[|r| - 1])
    ensures forall i | |r| <= i < |s| :: IsWhitespace(s[i])
  {
    if s != [] && (IsWhitespace(s[|s| - 1]) || s[|s| - 1] == '\n')
    then TrimEnd(s[..|s| - 1])
    else s
  }

  /** Trailing whitespace appended to a line is ignored. */
  lemma {:induction false} TrimEndIgnoresTrailing(s: string, w: string)
    requires forall i | 0 <= i < |w| :: IsWhitespace(w[i])
    ensures TrimEnd(s + w) == TrimEnd(s)
  {
    if w != [] {
      var w' := w[..|w| - 1];
      var t := s + w;
      assert t[|t| - 1] == w[|w| - 1];
      assert t[..|t| - 1] == s + w';
      assert TrimEnd(t) == TrimEnd(s + w');
      TrimEndIgnoresTrailing(s, w');
    } else {
      assert s + w == s;
    }
  }

  /** Leading whitespace is kept: it survives the trim of any line that is not blank. */
  lemma {:induction false} TrimEndKeepsLeading(c: char, s: string)
    requires TrimEnd(s) != []
    ensures TrimEnd([c] + s) == [c] + TrimEnd(s)
  {
    var t := [c] + s;
    assert s != [];
    assert t[..|t| - 1] == [c] + s[..|s| - 1];
    if IsWhitespace(s[|s| - 1]) {
      TrimEndKeepsLeading(c, s[..|s| - 1]);
    }
  }

  /** The `i`-th line, or an empty line past the end. */
  function LineAt(lines: seq<string>, i: nat): string {
    if i < |lines| then lines[i] else ""
  }

  function Max(a: nat, b: nat): (m: nat)
    ensures m >= a && m >= b && (m == a || m == b)
  {
    if a >= b then a else b
  }

  /**
   * The outputs agree: padding the shorter one with empty lines, every pair
   * of lines is equal once trailing whitespace is removed.
   */
  predicate LinesMatch(output: seq<string>, expected: seq<string>) {
    forall i | 0 <= i < Max(|output|, |expected|) ::
      TrimEnd(LineAt(output, i)) == TrimEnd(LineAt(expected, i))
  }

  /**
   * The comparison loop of `poll`: walks both line sequences together and
   * stops at the first pair, or the first surplus line, that does not match.
   */
  method CompareLines(output: seq<string>, expected: seq<string>) returns (matched: bool)
    ensures matched == LinesMatch(output, expected)
  {
    var i := 0;
    while true
      invariant i <= Max(|output|, |expected|)
      invariant forall k | 0 <= k < i :: TrimEnd(LineAt(output, k)) == TrimEnd(LineAt(expected, k))
      decreases Max(|output|, |expected|) - i
    {
      if i >= |output| && i >= |expected| {
        return true;
      } else if i >= |expected| {
        if TrimEnd(output[i]) != "" {
          assert LineAt(output, i) == output[i] && TrimEnd(LineAt(expected, i)) == "";
          return false;
        }
      } else if i >= |output| {
        if TrimEnd(expected[i]) != "" {
          assert LineAt(expected, i) == expected[i] && TrimEnd(LineAt(output, i)) == "";
          return false;
        }
      } else if TrimEnd(output[i]) != TrimEnd(expected[i]) {
        assert LineAt(output, i) == output[i] && LineAt(expected, i) == expected[i];
        return false;
      }
      i := i + 1;
    }
  }

  /** The comparison does not depend on which side is the program's output. */
  lemma LinesMatchSymmetric(output: seq<string>, expected: seq<string>)
    ensures LinesMatch(output, expected) <==> LinesMatch(expected, output)
  {
  }

  /** Lines that differ only in trailing whitespace match. */
  lemma TrailingWhitespaceAccepted(expected: seq<string>, pads: seq<string>)
    requires |pads| == |expected|
    requires forall k, j | 0 <= k < |pads| && 0 <= j < |pads[k]| :: IsWhitespace(pads[k][j])
    ensures LinesMatch(seq(|expected|, k requires 0 <= k < |expected| => expected[k] + pads[k]), expected)
  {
    var output := seq(|expected|, k requires 0 <= k < |expected| => expected[k] + pads[k]);
    forall k | 0 <= k < |expected|
      ensures TrimEnd(LineAt(output, k)) == TrimEnd(LineAt(expected, k))
    {
      TrimEndIgnoresTrailing(expected[k], pads[k]);
    }
  }

  /**
   * Surplus output lines past the end of the expected output are tolerated
   * exactly when each of them is blank after trimming.
   */
  lemma SurplusOutput(output: seq<string>, expected: seq<string>, extra: seq<string>)
    requires |expected| <= |output|
    ensures LinesMatch(output + extra, expected)
        <==> LinesMatch(output, expected) && forall k | 0 <= k < |extra| :: TrimEnd(extra[k]) == ""
  {
    var all := output + extra;
    if LinesMatch(all, expected) {
      forall k | 0 <= k < |extra| ensures TrimEnd(extra[k]) == "" {
        assert LineAt(all, |output| + k) == extra[k];
      }
      forall i | 0 <= i < |output|
        ensures TrimEnd(LineAt(output, i)) == TrimEnd(LineAt(expected, i))
      {
        assert LineAt(all, i) == LineAt(output, i);
      }
    }
    if LinesMatch(output, expected) && forall k | 0 <= k < |extra| :: TrimEnd(extra[k]) == "" {
      forall i | 0 <= i < |all|
        ensures TrimEnd(LineAt(all, i)) == TrimEnd(LineAt(expected, i))
      {
        if i >= |output| {
          assert LineAt(all, i) == extra[i - |output|];
        }
      }
    }
  }

  /** Surplus expected lines are treated the same way as surplus output lines. */
  lemma SurplusExpected(output: seq<string>, expected: seq<string>, extra: seq<string>)
    requires |output| <= |expected|
    ensures LinesMatch(output, expected + extra)
        <==> LinesMatch(output, expected) && forall k | 0 <= k < |extra| :: TrimEnd(extra[k]) == ""
  {
    SurplusOutput(expected, output, extra);
  }

  /** A paired line that differs from the expected one by leading whitespace is a mismatch. */
  lemma LeadingWhitespaceRejected(output: seq<string>, expected: seq<string>, i: nat, c: char)
    requires i < |output| && i < |expected|
    requires output[i] == [c] + expected[i]
    requires TrimEnd(expected[i]) != ""
    ensures !LinesMatch(output, expected)
  {
    TrimEndKeepsLeading(c, expected[i]);
    assert |TrimEnd(LineAt(output, i))| != |TrimEnd(LineAt(expected, i))|;
  }

  // ---------------------------------------------------------------------------
  // How the child ended
  // ---------------------------------------------------------------------------

  /**
   * `std::process::ExitStatus` on Unix: the exit code if the process exited,
   * the signal if one terminated it.
   */
  datatype ExitStatus = ExitStatus(code: Option<i32>, signal: Option<i32>)

  /** `ExitStatus::success`. */
  predicate Success(status: ExitStatus) {
    status.code == Some(0)
  }

  /** A crash signal: SIGSEGV, SIGBUS or SIGILL. */
  predicate IsCrashSignal(signal: i32) {
    signal == SIGSEGV || signal == SIGBUS || signal == SIGILL
  }

  /**
   * The verdict for a child that did not exit successfully; a missing exit
   * code is reported as -1.
   */
  function ExitVerdict(status: ExitStatus, stderr: string): (v: JudgeStatus)
    ensures v.SegmentFault? <==> status.signal.Some? && IsCrashSignal(status.signal.value)
    ensures v.SystemError? <==> status.signal.Some? && !IsCrashSignal(status.signal.value)
    ensures v.RuntimeError? <==> status.signal.None?
    ensures v.SystemError? ==> Some(v.signal) == status.signal
    ensures v.code == (if status.code.Some? then status.code.value else -1)
    ensures v.stderr == stderr
  {
    var code := match status.code case Some(c) => c case None => -1;
    match status.signal
    case Some(signal) =>
      if IsCrashSignal(signal) then SegmentFault(code, stderr)
      else SystemError(code, stderr, signal)
    case None => RuntimeError(code, stderr)
  }

  /**
   * The stderr step of a failed child as the source wires it: the stderr
   * pipe is taken and unwrapped, so a child spawned without a stderr pipe
   * panics (None here) before any verdict is made.
   */
  function FailedExitAsWired(status: ExitStatus, stderrPipe: Option<string>): (r: Option<JudgeStatus>)
    ensures r.None? <==> stderrPipe.None?
    ensures r.Some? ==> r.value == ExitVerdict(status, stderrPipe.value)
  {
    match stderrPipe
    case None => None
    case Some(stderr) => Some(ExitVerdict(status, stderr))
  }

  /**
   * `execute` spawns every child with stderr set to null, so there is no
   * pipe: every failed exit, a crash or a non-zero code alike, panics instead
   * of yielding SegmentFault, SystemError or RuntimeError.
   */
  lemma NullStderrPanics(status: ExitStatus)
    requires !Success(status)
    ensures FailedExitAsWired(status, None).None?
    ensures FailedExitAsWired(status, None) != Some(ExitVerdict(status, ""))
    ensures ExitVerdict(status, "").SegmentFault? || ExitVerdict(status, "").SystemError?
            || ExitVerdict(status, "").RuntimeError?
  {
  }

  /**
   * The verdict for a child that has finished: a clean exit is judged by
   * its output, any other exit is classified by `ExitVerdict`.
   */
  function FinishedVerdict(status: ExitStatus, output: seq<string>, expected: seq<string>,
                           stderr: string): (v: JudgeStatus)
    ensures Success(status) ==> v == Accepted || v == WrongAnswer
    ensures !Success(status) ==> v == ExitVerdict(status, stderr)
  {
    if Success(status) then
      if LinesMatch(output, expected) then Accepted else WrongAnswer
    else ExitVerdict(status, stderr)
  }

  /**
   * A finished child is Accepted exactly when it exited with code 0 and its
   * output matches; a clean exit never yields a crash verdict, and an
   * unclean one never yields Accepted or WrongAnswer.
   */
  lemma FinishedVerdictCases(status: ExitStatus, output: seq<string>, expected: seq<string>,
                             stderr: string)
    ensures var v := FinishedVerdict(status, output, expected, stderr);
      && (v == Accepted <==> Success(status) && LinesMatch(output, expected))
      && (v == WrongAnswer <==> Success(status) && !LinesMatch(output, expected))
      && (!Success(status) ==> v.SegmentFault? || v.SystemError? || v.RuntimeError?)
  {
  }

  // ---------------------------------------------------------------------------
  // The poll step
  // ---------------------------------------------------------------------------

  /** What one call of `poll` returns. */
  datatype PollResult = Pending | Ready(result: JudgeResult)

  /**
   * `Judge`: one running test case. The child process, its clock and its
   * files are not modelled; each poll receives what it would observe.
   */
  class Judge {
    const id: nat
    const timeLimit: nat
    const memoryLimit: u64
    var memoryUsed: u64
    var timeUsed: nat

    /** The judge `execute` builds for a freshly spawned child. */
    constructor (id: nat, options: JudgeOptions)
      ensures this.id == id
      ensures timeLimit == options.timeLimit && memoryLimit == options.memoryLimit
      ensures memoryUsed == 0 && timeUsed == 0
    {
      this.id := id;
      timeLimit := options.timeLimit;
      memoryLimit := options.memoryLimit;
      memoryUsed := 0;
      timeUsed := 0;
    }

    /**
     * One poll. `exit` is what `try_wait` reports, `elapsed` the time since
     * the child was spawned, `statm` the contents of its statm file (None if
     * unreadable), and `output`/`expected`/`stderr` what the finished child
     * left behind.
     */
    method Poll(exit: Option<ExitStatus>, elapsed: nat, statm: Option<string>, pageSize: u64,
                output: seq<string>, expected: seq<string>, stderr: string)
      returns (p: PollResult)
      modifies this
      // A finished child: record the time, keep the peak memory, give the verdict.
      ensures exit.Some? ==> timeUsed == elapsed && memoryUsed == old(memoryUsed)
      ensures exit.Some? ==>
        p == Ready(JudgeResult(FinishedVerdict(exit.value, output, expected, stderr),
                               elapsed, old(memoryUsed)))
      // A running child: the peak memory absorbs the sample ...
      ensures exit.None? ==> memoryUsed >= old(memoryUsed)
      ensures exit.None? ==>
        memoryUsed == match MemoryUsage(statm, pageSize)
                      case Some(sample) => Max(sample, old(memoryUsed))
                      case None => old(memoryUsed)
      // ... then the memory limit is checked, then the time limit, both strictly.
      ensures exit.None? && memoryUsed > memoryLimit ==>
        p == Ready(JudgeResult(MemoryLimitExceeded, elapsed, memoryUsed)) && timeUsed == elapsed
      ensures exit.None? && memoryUsed <= memoryLimit && elapsed > timeLimit ==>
        p == Ready(JudgeResult(TimeLimitExceeded, elapsed, memoryUsed)) && timeUsed == elapsed
      ensures exit.None? && memoryUsed <= memoryLimit && elapsed <= timeLimit ==>
        p == Pending && timeUsed == old(timeUsed)
    {
      match exit
      case Some(status) =>
        timeUsed := elapsed;
        var verdict: JudgeStatus;
        if Success(status) {
          var matched := CompareLines(output, expected);
          verdict := if matched then Accepted else WrongAnswer;
        } else {
          verdict := ExitVerdict(status, stderr);
        }
        p := Ready(JudgeResult(verdict, timeUsed, memoryUsed));
      case None =>
        var sample := MemoryUsage(statm, pageSize);
        if sample.Some? {
          memoryUsed := Max(sample.value, memoryUsed);
        }
        if memoryUsed > memoryLimit {
          timeUsed := elapsed;
          return Ready(JudgeResult(MemoryLimitExceeded, timeUsed, memoryUsed));
        }
        if elapsed > timeLimit {
          timeUsed := elapsed;
          return Ready(JudgeResult(TimeLimitExceeded, timeUsed, memoryUsed));
        }
        p := Pending;
    }
  }
}

=== FILE: runtime.dfy ===
/**
 * Handling one submission notification (src/engine/runtime.rs): ignoring
 * everything but newly created submissions, choosing the source file name,
 * running the test cases and folding their verdicts into one.
 */
module Runtime {
  import opened Wrappers
  import opened Utils
  import opened Config
  import opened Judge
  import opened Compile
  import opened Cases

  /** What happened to the submission record a notification is about. */
  datatype Action = Create | Update | Delete

  /** A problem's test case as stored with the submission. */
  datatype ProblemCase = ProblemCase(input: string, output: string)

  /** The parts of a submission record the judge uses. */
  datatype Submission = Submission(id: string, lang: Language, testCases: seq<ProblemCase>, code: string)

  datatype Notification = Notification(action: Action, data: Submission)

  /** What is written back to the submission: the per-case verdicts and the overall one. */
  datatype Report = Report(details: seq<JudgeResult>, result: JudgeResult)

  /** The name the submitted code is saved under in its workspace. */
  function SourceFileName(language: Language): (name: string)
    ensures IsWord(name) && '/' !in name && |name| > 5
    ensures name[..5] == (if language == Java then "Main." else "main.")
  {
    match language
    case C => "main.c"
    case CPP => "main.cpp"
    case Java => "Main.java"
    case Python => "main.py"
    case Rust => "main.rs"
    case NodeJs => "main.js"
    case Golang => "main.go"
  }

  /** No two languages share a source file name. */
  lemma SourceFileNamesDistinct(a: Language, b: Language)
    requires a != b
    ensures SourceFileName(a) != SourceFileName(b)
  {
  }

  /** The options every submission is judged with: the defaults with `unsafeMode` set. */
  function SubmissionOptions(): (o: JudgeOptions)
    ensures o == DefaultOptions().(unsafeMode := true)
  {
    JudgeOptions(NANOS_PER_SECOND, 128 * 1024 * 1024, true, false, true)
  }

  /** The test cases handed to the driver: one per stored case, all reading `tests/1.in`. */
  function SubmissionCases(stored: seq<ProblemCase>): (cases: seq<TestCase>)
    ensures |cases| == |stored|
    ensures forall k | 0 <= k < |cases| :: cases[k] == TestCase("tests/1.in", "tests/1.out")
  {
    seq(|stored|, _ => TestCase("tests/1.in", "tests/1.out"))
  }

  predicate AllAccepted(results: seq<JudgeResult>) {
    forall k | 0 <= k < |results| :: IsAccepted(results[k])
  }

  /** The longest time any verdict took; zero for none. */
  function MaxTime(results: seq<JudgeResult>): nat {
    if results == [] then 0
    else Max(MaxTime(results[..|results| - 1]), results[|results| - 1].timeUsed)
  }

  /** The most memory any verdict used; zero for none. */
  function MaxMemory(results: seq<JudgeResult>): u64 {
    if results == [] then 0
    else Max(MaxMemory(results[..|results| - 1]), results[|results| - 1].memoryUsed)
  }

  /** MaxTime and MaxMemory are the maxima: bounds on every verdict, reached by one of them. */
  lemma {:induction false} MaximaAreReached(results: seq<JudgeResult>)
    ensures forall k | 0 <= k < |results| ::
      results[k].timeUsed <= MaxTime(results) && results[k].memoryUsed <= MaxMemory(results)
    ensures results != [] ==> exists k | 0 <= k < |results| :: results[k].timeUsed == MaxTime(results)
    ensures results != [] ==> exists k | 0 <= k < |results| :: results[k].memoryUsed == MaxMemory(results)
  {
    if results != [] {
      var init := results[..|results| - 1];
      MaximaAreReached(init);
      forall k | 0 <= k < |init| ensures init[k] == results[k] { }
      var last := |results| - 1;
      if MaxTime(results) != results[last].timeUsed {
        assert MaxTime(results) == MaxTime(init) && init != [];
        var k :| 0 <= k < |init| && init[k].timeUsed == MaxTime(init);
        assert results[k].timeUsed == MaxTime(results);
      }
      if MaxMemory(results) != results[last].memoryUsed {
        assert MaxMemory(results) == MaxMemory(init) && init != [];
        var k :| 0 <= k < |init| && init[k].memoryUsed == MaxMemory(init);
        assert results[k].memoryUsed == MaxMemory(results);
      }
    }
  }

  /** The position of the first verdict that is not Accepted. */
  function FirstRejected(results: seq<JudgeResult>): (k: nat)
    requires !AllAccepted(results)
    ensures k < |results| && !IsAccepted(results[k])
    ensures forall j | 0 <= j < k :: IsAccepted(results[j])
  {
    if !IsAccepted(results[0]) then 0
    else
      assert !AllAccepted(results[1..]) by {
        var j :| 0 <= j < |results| && !IsAccepted(results[j]);
        assert results[1..][j - 1] == results[j];
      }
      1 + FirstRejected(results[1..])
  }

  /**
   * The overall verdict: the first rejection, exactly as it was reported;
   * otherwise Accepted with the longest time and the largest memory.
   */
  function Aggregated(results: seq<JudgeResult>): JudgeResult {
    if AllAccepted(results) then JudgeResult(Accepted, MaxTime(results), MaxMemory(results))
    else results[FirstRejected(results)]
  }

  /** No verdicts aggregate to the default result. */
  lemma AggregatedEmpty()
    ensures Aggregated([]) == DefaultResult()
  {
  }

  /** The aggregation loop of `handle_submission`. */
  method Aggregate(results: seq<JudgeResult>) returns (result: JudgeResult)
    ensures result == Aggregated(results)
  {
    result := DefaultResult();
    var i := 0;
    while i < |results|
      invariant i <= |results|
      invariant AllAccepted(results[..i])
      invariant result == JudgeResult(Accepted, MaxTime(results[..i]), MaxMemory(results[..i]))
    {
      var res := results[i];
      assert results[..i + 1][..i] == results[..i];
      result := result.(memoryUsed := Max(result.memoryUsed, res.memoryUsed),
                        timeUsed := Max(result.timeUsed, res.timeUsed));
      if !IsAccepted(res) {
        result := res;
        break;
      }
      i := i + 1;
    }
    if i == |results| {
      assert results[..i] == results;
    }
  }

  /**
   * `handle_submission`. `cwd` is the judge's working directory; `which`,
   * `compileError` and `execute` are as for `RunTestCases`.
   */
  method HandleSubmission(notification: Notification, cwd: string,
                          which: string -> Option<string>, compileError: Option<string>,
                          execute: nat -> Option<JudgeResult>)
    returns (r: Result<Option<Report>, DriverError>)
    ensures notification.action != Create ==> r == Ok(None)
    ensures notification.action == Create ==>
      var submission := notification.data;
      var workspace := JoinPath(JoinPath(cwd, "workspaces"), submission.id);
      match RunSpec(submission.lang, workspace, SubmissionOptions(), |submission.testCases|,
                    which, compileError, execute)
      case Err(e) => r == Err(e)
      case Ok(details) => r == Ok(Some(Report(details, Aggregated(details))))
  {
    if notification.action != Create {
      return Ok(None);
    }
    var submission := notification.data;
    var workspace := JoinPath(JoinPath(cwd, "workspaces"), submission.id);
    var run := RunTestCases(submission.lang, workspace, SubmissionOptions(),
                            SubmissionCases(submission.testCases), which, compileError, execute);
    match run
    case Err(e) =>
      r := Err(e);
    case Ok(details) =>
      var result := Aggregate(details);
      r := Ok(Some(Report(details, result)));
  }

  /**
   * What a created submission reports: a compile error is the whole story;
   * otherwise, with every case executed and fail-fast on, the details are the
   * verdicts up to and including the first rejection.
   */
  lemma HandleSubmissionShape(submission: Submission, cwd: string,
                              which: string -> Option<string>,
                              execute: nat -> Option<JudgeResult>)
    requires forall k | 0 <= k < |submission.testCases| :: execute(k).Some?
    requires ExecPath(submission.lang, JoinPath(JoinPath(cwd, "workspaces"), submission.id), which).Ok?
    ensures var details := RunSpec(submission.lang, JoinPath(JoinPath(cwd, "workspaces"), submission.id),
                                   SubmissionOptions(), |submission.testCases|, which, None, execute);
      && details.Ok?
      && |details.value| <= |submission.testCases|
      && (AllAccepted(details.value) ==> |details.value| == |submission.testCases|)
      && (!AllAccepted(details.value) ==>
            Aggregated(details.value) == details.value[|details.value| - 1])
  {
    var n := |submission.testCases|;
    DriveExecutionError(execute, n, true, 0);
    DriveInOrder(execute, n, true, 0);
    DriveFailFast(execute, n, 0);
  }
}

=== FILE: utils.dfy ===
/**
 * Reading a process's resident memory from the contents of `/proc/<pid>/statm`
 * (src/utils.rs), with the pieces of Rust's standard library it relies on:
 * `char::is_whitespace`, `str::split_whitespace` and `str::parse::<u64>`.
 */
module Utils {
  import opened Wrappers

  const U64_MODULUS: nat := 0x1_0000_0000_0000_0000

  /** Rust's `u64` and `i32`. */
  type u64 = x: nat | x < U64_MODULUS
  type i32 = x: int | -0x8000_0000 <= x < 0x8000_0000

  /** `char::is_whitespace`: the characters with the Unicode White_Space property. */
  predicate IsWhitespace(c: char) {
    var n := c as int;
    (0x09 <= n <= 0x0D) || n == 0x20 || n == 0x85 || n == 0xA0 || n == 0x1680
    || (0x2000 <= n <= 0x200A) || n == 0x2028 || n == 0x2029 || n == 0x202F
    || n == 0x205F || n == 0x3000
  }

  /**
   * Among ASCII characters, exactly space and U+0009 to U+000D (tab, line
   * feed, vertical tab, form feed, carriage return) are whitespace; no digit is.
   */
  lemma IsWhitespaceAscii(c: char)
    ensures IsDigit(c) ==> !IsWhitespace(c)
    ensures c as int < 0x80 ==> (IsWhitespace(c) <==> c == ' ' || '\t' <= c <= '\r')
  {
  }

  /** A token of `split_whitespace`: non-empty, with no whitespace in it. */
  predicate IsWord(w: string) {
    w != [] && forall i | 0 <= i < |w| :: !IsWhitespace(w[i])
  }

  /** Length of the run of non-whitespace characters that starts `s`. */
  function WordLength(s: string): (n: nat)
    ensures n <= |s|
    ensures forall i | 0 <= i < n :: !IsWhitespace(s[i])
    ensures n < |s| ==> IsWhitespace(s[n])
  {
    if s == [] || IsWhitespace(s[0]) then 0 else 1 + WordLength(s[1..])
  }

  /** `str::split_whitespace`: the maximal whitespace-free runs of `s`, in order. */
  function SplitWhitespace(s: string): (ws: seq<string>)
    ensures forall k | 0 <= k < |ws| :: IsWord(ws[k])
    decreases |s|
  {
    if s == [] then []
    else if IsWhitespace(s[0]) then SplitWhitespace(s[1..])
    else
      var n := WordLength(s);
      [s[..n]] + SplitWhitespace(s[n..])
  }

  /** A non-empty run of whitespace, as separates the words of a text. */
  predicate IsSpace(sep: string) {
    sep != [] && forall i | 0 <= i < |sep| :: IsWhitespace(sep[i])
  }

  /** The words of `ws`, word `k` followed by the whitespace run `seps[k]`. */
  function Unwords(ws: seq<string>, seps: seq<string>): string
    requires |seps| == |ws|
  {
    if ws == [] then "" else ws[0] + seps[0] + Unwords(ws[1..], seps[1..])
  }

  lemma WordLengthOfWord(w: string, rest: string)
    requires IsWord(w)
    requires rest == [] || IsWhitespace(rest[0])
    ensures WordLength(w + rest) == |w|
  {
    var s := w + rest;
    assert forall i | 0 <= i < |w| :: s[i] == w[i];
    assert |w| < |s| ==> s[|w|] == rest[0];
  }

  /** Leading whitespace does not change the words of a text. */
  lemma {:induction false} SkipSpace(sep: string, rest: string)
    requires forall i | 0 <= i < |sep| :: IsWhitespace(sep[i])
    ensures SplitWhitespace(sep + rest) == SplitWhitespace(rest)
  {
    if sep != [] {
      var s := sep + rest;
      assert s[0] == sep[0] && IsWhitespace(s[0]);
      assert s[1..] == sep[1..] + rest;
      assert SplitWhitespace(s) == SplitWhitespace(s[1..]);
      SkipSpace(sep[1..], rest);
    } else {
      assert sep + rest == rest;
    }
  }

  /** Splitting words joined by any whitespace runs gives the words back. */
  lemma {:induction false} SplitUnwords(ws: seq<string>, seps: seq<string>)
    requires |seps| == |ws|
    requires forall k | 0 <= k < |ws| :: IsWord(ws[k])
    requires forall k | 0 <= k < |seps| :: IsSpace(seps[k])
    ensures SplitWhitespace(Unwords(ws, seps)) == ws
  {
    if ws != [] {
      var w := ws[0];
      var sep := seps[0];
      var rest := Unwords(ws[1..], seps[1..]);
      var s := Unwords(ws, seps);
      assert s == w + (sep + rest);
      assert IsSpace(sep);
      WordLengthOfWord(w, sep + rest);
      assert s[..|w|] == w;
      assert s[|w|..] == sep + rest;
      SkipSpace(sep, rest);
      SplitUnwords(ws[1..], seps[1..]);
    }
  }

  predicate IsDigit(c: char) {
    '0' <= c <= '9'
  }

  predicate AllDigits(s: string) {
    forall i | 0 <= i < |s| :: IsDigit(s[i])
  }

  /** The value of a string of decimal digits, most significant first. */
  function DigitsValue(ds: string): nat
    requires AllDigits(ds)
  {
    if ds == [] then 0
    else 10 * DigitsValue(ds[..|ds| - 1]) + (ds[|ds| - 1] as int - '0' as int)
  }

  function DigitChar(d: nat): (c: char)
    requires d < 10
    ensures IsDigit(c) && c as int - '0' as int == d
  {
    ('0' as int + d) as char
  }

  /** The decimal form of `n` without leading zeros, as `format!("{}", n)` writes it. */
  function Decimal(n: nat): (s: string)
    ensures s != [] && AllDigits(s)
    ensures DigitsValue(s) == n
    ensures |s| > 1 ==> s[0] != '0'
  {
    if n < 10 then [DigitChar(n)]
    else
      var s := Decimal(n / 10) + [DigitChar(n % 10)];
      assert s[..|s| - 1] == Decimal(n / 10);
      s
  }

  /**
   * `str::parse::<u64>`: an optional `+`, then one or more ASCII digits
   * whose value fits in 64 bits; anything else is an error.
   */
  function ParseU64(t: string): (r: Option<u64>)
    ensures r.Some? ==> t != [] && AllDigits(if t[0] == '+' then t[1..] else t)
    ensures t == [] || t == "+" ==> r.None?
  {
    var ds := if |t| > 0 && t[0] == '+' then t[1..] else t;
    if ds != [] && AllDigits(ds) && DigitsValue(ds) < U64_MODULUS
    then Some(DigitsValue(ds))
    else None
  }

  /**
   * Parsing what `Decimal` prints gives the number back when it fits in a
   * `u64`, and an overflow error (None) when it does not.
   */
  lemma ParseDecimal(n: nat)
    ensures ParseU64(Decimal(n)) == (if n < U64_MODULUS then Some(n) else None)
    ensures ParseU64("+" + Decimal(n)) == (if n < U64_MODULUS then Some(n) else None)
  {
    var s := Decimal(n);
    assert s[0] != '+' by { assert IsDigit(s[0]); }
    assert ("+" + s)[1..] == s;
  }

  /** A string with a character that is neither a digit nor a leading `+` does not parse. */
  lemma ParseRejectsNonDigit(t: string, i: nat)
    requires 0 < i < |t| || (i == 0 < |t| && t[0] != '+')
    requires !IsDigit(t[i])
    ensures ParseU64(t) == None
  {
    if t[0] == '+' {
      assert t[1..][i - 1] == t[i];
    }
  }

  /**
   * `get_memory_usage`: `statm` is the contents of `/proc/<pid>/statm`, or
   * None when the file cannot be read; `pageSize` is `sysconf(_SC_PAGESIZE)`.
   * The second field (resident pages) times the page size, with `u64`
   * multiplication wrapping as in a release build.
   */
  function MemoryUsage(statm: Option<string>, pageSize: u64): (r: Option<u64>)
    ensures statm.None? ==> r.None?
    ensures statm.Some? && |SplitWhitespace(statm.value)| < 2 ==> r.None?
    ensures statm.Some? && |SplitWhitespace(statm.value)| >= 2 ==>
      (r.Some? <==> ParseU64(SplitWhitespace(statm.value)[1]).Some?)
    ensures r.Some? ==>
      r.value == ParseU64(SplitWhitespace(statm.value)[1]).value * pageSize % U64_MODULUS
  {
    match statm
    case None => None
    case Some(contents) =>
      var words := SplitWhitespace(contents);
      if |words| < 2 then None
      else
        match ParseU64(words[1])
        case None => None
        case Some(pages) => Some(pages * pageSize % U64_MODULUS)
  }

  lemma DecimalIsWord(n: nat)
    ensures IsWord(Decimal(n))
  {
    var d := Decimal(n);
    forall i | 0 <= i < |d| ensures !IsWhitespace(d[i]) { assert IsDigit(d[i]); }
  }

  lemma AllWords(a: string, b: string, rest: seq<string>)
    requires IsWord(a) && IsWord(b)
    requires forall k | 0 <= k < |rest| :: IsWord(rest[k])
    ensures forall k | 0 <= k < |rest| + 2 :: IsWord(([a, b] + rest)[k])
  {
    var ws := [a, b] + rest;
    forall k | 0 <= k < |ws| ensures IsWord(ws[k]) {
      if k >= 2 { assert ws[k] == rest[k - 2]; }
    }
  }

  lemma SecondWordPages(contents: string, pages: u64, pageSize: u64)
    requires |SplitWhitespace(contents)| >= 2
    requires ParseU64(SplitWhitespace(contents)[1]) == Some(pages)
    ensures MemoryUsage(Some(contents), pageSize) == Some(pages * pageSize % U64_MODULUS)
  {
  }

  /** The words of a line of numbers are those numbers. */
  lemma StatmWords(size: u64, resident: u64, rest: seq<string>, seps: seq<string>)
    requires forall k | 0 <= k < |rest| :: IsWord(rest[k])
    requires |seps| == |rest| + 2 && forall k | 0 <= k < |seps| :: IsSpace(seps[k])
    ensures SplitWhitespace(Unwords([Decimal(size), Decimal(resident)] + rest, seps))
            == [Decimal(size), Decimal(resident)] + rest
  {
    DecimalIsWord(size);
    DecimalIsWord(resident);
    AllWords(Decimal(size), Decimal(resident), rest);
    SplitUnwords([Decimal(size), Decimal(resident)] + rest, seps);
  }

  /** Numbers separated by any whitespace runs yield the second number times the page size. */
  lemma StatmResident(size: u64, resident: u64, rest: seq<string>, seps: seq<string>, pageSize: u64)
    requires forall k | 0 <= k < |rest| :: IsWord(rest[k])
    requires |seps| == |rest| + 2 && forall k | 0 <= k < |seps| :: IsSpace(seps[k])
    ensures MemoryUsage(Some(Unwords([Decimal(size), Decimal(resident)] + rest, seps)), pageSize)
            == Some(resident * pageSize % U64_MODULUS)
  {
    var contents := Unwords([Decimal(size), Decimal(resident)] + rest, seps);
    StatmWords(size, resident, rest, seps);
    ParseDecimal(resident);
    SecondWordPages(contents, resident, pageSize);
  }

  /** The kernel's statm format: numbers separated by single spaces, ending in a newline. */
  lemma StatmLine(size: u64, resident: u64, rest: seq<string>, pageSize: u64)
    requires forall k | 0 <= k < |rest| :: IsWord(rest[k])
    ensures MemoryUsage(Some(Unwords([Decimal(size), Decimal(resident)] + rest,
                                     seq(|rest| + 1, _ => " ") + ["\n"])), pageSize)
            == Some(resident * pageSize % U64_MODULUS)
  {
    var seps := seq(|rest| + 1, _ => " ") + ["\n"];
    forall k | 0 <= k < |seps| ensures IsSpace(seps[k]) {
      IsWhitespaceAscii(seps[k][0]);
    }
    StatmResident(size, resident, rest, seps, pageSize);
  }
}

=== FILE: wrappers.dfy ===
/** Option and Result: the model's counterparts of Rust's `Option` and `anyhow::Result`. */
module Wrappers {

  datatype Option<+T> = None | Some(value: T)

  datatype Result<+T, +E> = Ok(value: T) | Err(error: E)
}
